=== FILE: README.md ===
# keycloak-auth, modelled in Dafny

A model of the client-side authentication core of `@cocoon-ai/keycloak-auth`:
the auth manager created by `createAuthManager` (its token-lifecycle state
machine, its single `"token"` storage slot, its listener set and the
notifications it delivers), the authenticated `fetch` wrapper with its single
retry on 401, the authenticated server-sent-events opener up to the URL it
connects to, and the environment-driven configuration and local-mode switch.

Every manager operation is a pure transition over a `World` record: the current
`AuthState` snapshot, the storage slot (`Option<string>`), the listener set as a
duplicate-free sequence in insertion order, an append-only notification log, the
construction-time setup (local mode, which callbacks were supplied, the page
origin) and whether `init` installed the token-expiry handler. The asynchronous
collaborators are not called; what they settled to is a parameter:

- the identity-provider check (`SessionCheck`: threw, or settled with the
  adapter's `authenticated` flag and token);
- `updateToken(30)` (`TokenRefresh`: rejected, or resolved with `refreshed` and
  the adapter's token afterwards) and the adapter's `authenticated` flag;
- the profile fetch and the JWT payload decode (`UserOutcome`);
- the local-login callback (`Option<LoginGrant>`, `None` when it rejects).

JavaScript truthiness of a `string | null` (present and not empty) is
`Types.Truthy`. Modules: `Wrappers`, `Text`, `Types`, `Config`, `Listeners`,
`AuthManager`, `Lifecycle` (operation sequences and reachable-state
properties), `Http`, `Query` (URL query pairs with `URLSearchParams.set`), `Sse`.

Behaviour of the code worth noting:

- `isAuthenticated` implies a token is present, but not the other way round: a
  fresh manager holds a stored token while not authenticated
  (`Lifecycle.StoredTokenNotAuthenticated`);
- the listener set is a JavaScript `Set`, so notifications go out in insertion
  order and re-subscribing a present listener keeps its place;
- `getToken` stores a refreshed token but does not put it into the snapshot;
- the stream URL is resolved against the page origin, so the text the code
  produces is absolute; the model keeps the part the code builds from
  `baseURL` and `path`.

## Model

| member | source | states |
|---|---|---|
| `Config.Resolve` | src/config.ts:25-27 | a field is the environment value when the variable is defined, else the supplied default when given, else the literal |
| `Config.CreateKeycloakConfig` | src/config.ts:21-29 | each of `url`, `realm`, `clientId` follows its own environment, default, literal chain |
| `Config.EmptyEnvValueWins` | src/config.ts:25 | a variable defined as the empty string wins over a supplied default |
| `Config.FieldsIndependent` | src/config.ts:24-28 | a field depends only on its own variable and its own default |
| `Config.LiteralDefaults` | src/config.ts:24-28 | with an empty environment and no defaults the result is `https://auth.cocoon-ai.com` / `cai-portal` / `cai-portal-frontend` |
| `Config.IsLocalAuthMode` | src/config.ts:37-45 | false whenever `VITE_FORCE_KEYCLOAK` is exactly `"true"`; otherwise true iff `VITE_API_URL` is defined and contains `localhost` or `127.0.0.1` |
| `Text.Includes` | src/config.ts:44 | a string that starts with the substring includes it, and only a string at least as long can include it |
| `Text.IncludesIffOccurs` | src/config.ts:44 | the scanning `includes` is true exactly when the substring occurs at some index |
| `Listeners.Add` | src/auth-manager.ts:200 | adding keeps every member and its order, adds the new one, and keeps the set duplicate-free |
| `Listeners.Remove` | src/auth-manager.ts:201 | deleting leaves exactly the other members and keeps the set duplicate-free; an absent member changes nothing; a present one is cut out at its position, the rest keeping their order |
| `Listeners.Broadcast` | src/auth-manager.ts:63 | one notification per listener, in the set's order, each carrying the same snapshot |
| `Listeners.BroadcastOnce` | src/auth-manager.ts:63 | in a duplicate-free set each member receives the snapshot exactly once and a non-member nothing |
| `Listeners.BroadcastMisses` | src/auth-manager.ts:63 | a listener outside the set receives nothing |
| `AuthManager.Create` | src/auth-manager.ts:51-59 | a new manager is loading, unauthenticated, without user, holds the stored token, and takes its mode from the environment |
| `AuthManager.Merge` | src/auth-manager.ts:62 | fields named in the update take its values; every other field keeps its old value |
| `AuthManager.SetState` | src/auth-manager.ts:61-64 | the snapshot becomes the merge, the log grows by one broadcast of it, nothing else changes |
| `AuthManager.SetStateDeliversOnce` | src/auth-manager.ts:61-64 | each current listener receives the merged snapshot exactly once per call; others receive nothing |
| `AuthManager.UserFromToken` | src/auth-manager.ts:66-80 | `sub`/`email` default to empty, `name` falls back to `preferred_username`, roles default to empty; an undecodable token gives the empty user |
| `AuthManager.ResolveUser` | src/auth-manager.ts:85-87 | the profile fetch decides when supplied; otherwise decoding, which cannot fail, supplies the user |
| `AuthManager.TokenPending` | src/auth-manager.ts:83 | before the user is resolved the token is already in storage and the snapshot and log are untouched |
| `AuthManager.ResolveAndSet` | src/auth-manager.ts:84-93 | with the user resolved: the authenticated snapshot and the stored token kept; without: storage emptied and snapshot signed out; one notification round either way |
| `AuthManager.FetchAndSetUser` | src/auth-manager.ts:82-93 | it is the token-stored world followed by the resolution step; success: snapshot `{user, token, false, true}` and storage holds the token; failure: storage emptied and snapshot signed out; one notification round either way |
| `AuthManager.InitFromStorage` | src/auth-manager.ts:118-123 | a usable stored token is resolved into a user; otherwise only `isLoading` turns false |
| `AuthManager.InitKeycloak` | src/auth-manager.ts:95-133 | a live session with a usable token signs in and installs the expiry handler; a negative or thrown check falls back to storage |
| `AuthManager.Init` | src/auth-manager.ts:138-149 | every branch ends with `isLoading` false and one notification round; in local mode with no usable stored token only `isLoading` changes |
| `AuthManager.RedirectTarget` | src/auth-manager.ts:173-176 | the redirect target is the given URI, else the page origin |
| `AuthManager.Logout` | src/auth-manager.ts:187-197 | storage emptied, snapshot signed out with one notification per listener; redirect exactly when not in local mode and a session is live |
| `AuthManager.LogoutIdempotent` | src/auth-manager.ts:187-197 | logging out twice leaves the same snapshot and storage as once |
| `AuthManager.OnTokenExpired` | src/auth-manager.ts:104-115 | a refresh with a usable token stores it and changes only the snapshot's token; a rejected refresh is a logout; otherwise nothing changes |
| `AuthManager.GetToken` | src/auth-manager.ts:155-171 | the answer is always the slot's content afterwards; only a live-session refresh with a usable token outside local mode writes the slot; local mode answers the slot untouched |
| `AuthManager.LocalLogin` | src/auth-manager.ts:178-185 | without a callback it fails with a configuration error; a rejection propagates; a grant stores the token and sets the authenticated snapshot |
| `AuthManager.OnStateChange` | src/auth-manager.ts:199-200 | a new listener joins the set once, after the existing ones; subscribing a present listener changes nothing; the set stays duplicate-free; nothing else changes |
| `AuthManager.Unsubscribe` | src/auth-manager.ts:201 | the listener leaves the set, every other member stays in order, nothing else changes; unsubscribing an absent listener changes nothing |
| `AuthManager.UnsubscribeSparesOthers` | src/auth-manager.ts:199-202 | after unsubscribing, a state change gives that listener nothing and every other listener exactly what it would have received |
| `Lifecycle.Apply` | src/auth-manager.ts:135-203 | every operation appends at most one notification round carrying the snapshot it leaves; a local login without callback, or whose callback rejects, changes nothing |
| `Lifecycle.LocalInitIgnoresCheck` | src/auth-manager.ts:139-145 | in local mode `init` never consults the identity provider |
| `Lifecycle.ApplyKeepsInv` | src/auth-manager.ts:54-197 | every operation keeps: authenticated implies token, user and stored token present; expiry handler only after loading; no duplicate listeners |
| `Lifecycle.TokenPendingKeepsInv` | src/auth-manager.ts:82-93 | the world exposed while the user is awaited, and the one left afterwards, both keep the invariant |
| `Lifecycle.RunKeepsInv` | src/auth-manager.ts:54-197 | any sequence of operations keeps the invariant |
| `Lifecycle.AuthenticatedHasToken` | src/auth-manager.ts:54-197 | in every state reachable from creation, `isAuthenticated` implies a token is present |
| `Lifecycle.StoredTokenNotAuthenticated` | src/auth-manager.ts:54-59 | the converse fails: a fresh manager can hold a token while not authenticated |
| `Lifecycle.LoadedStaysLoaded` | src/auth-manager.ts:61-197 | once `isLoading` is false no operation sets it back |
| `Lifecycle.LoadedAfterInit` | src/auth-manager.ts:138-149 | any history containing an `init` ends with `isLoading` false |
| `Lifecycle.SilentWhileAbsent` | src/auth-manager.ts:63 | a listener outside the set hears nothing from any operation that does not subscribe it |
| `Lifecycle.UnsubscribedHearsNothing` | src/auth-manager.ts:199-202 | after its handle is called a listener receives nothing until it subscribes again |
| `Lifecycle.FailedCheckIsFallback` | src/auth-manager.ts:116-132 | a thrown check and a check without a usable session start up identically |
| `Http.NewHeaders` | src/http.ts:31 | a name is present exactly when some initial pair carries it, compared case-insensitively |
| `Http.HeaderSet` | src/http.ts:36 | the name then holds exactly the value, case-insensitively; other names unchanged |
| `Http.HeaderAppend` | src/http.ts:31 | a repeated name joins its values with `", "`; other names unchanged |
| `Http.ResolveUrl` | src/http.ts:30 | a path starting with `http` is used as is, anything else is appended to the base |
| `Http.ResolveUrlKeepsPath` | src/http.ts:30 | the URL ends with the path, and a relative one starts with the base |
| `Http.Decorate` | src/http.ts:31-42 | `Authorization: Bearer <token>` only with auth on and a usable token; `Content-Type` JSON only when absent and the body is a non-empty string; an existing `Content-Type` and every other header are kept |
| `Http.AuthFetch` | src/http.ts:29-56 | one or two fetches to the same URL with the same options; the second iff the first is 401, auth on, not local mode and a usable fresh token; it replaces only `Authorization`; no token request with `skipAuth`; the last fetch's result is returned |
| `Http.RetryChangesOnlyAuthorization` | src/http.ts:48-51 | the retry keeps URL, options and every header other than `Authorization` |
| `Http.RetrySucceeds` | src/http.ts:44-55 | 401 then 200 with a fresh token: two fetches and the 200 is returned |
| `Http.PersistentUnauthorizedReturned` | src/http.ts:44-55 | a second 401 is returned as a response |
| `Query.SetParam` | src/sse.ts:47 | the key then appears once with the value, in place of its first old pair with the later ones removed, or appended when absent; every other pair stays, in order |
| `Query.SetAll` | src/sse.ts:45-49 | each key among the extra parameters ends up once with its last value; every other key keeps its values |
| `Query.Parse` | src/sse.ts:39 | the pairs read from query text carry no `&` and no `=` in a name; empty text gives no pairs; text without `&` gives one pair |
| `Query.Serialize` | src/sse.ts:51 | the text is empty exactly when there are no pairs |
| `Query.ParseSerialize` | src/sse.ts:39-51 | parsing the `name=value&...` text of separator-free pairs gives the pairs back |
| `Sse.ParseUrl` | src/sse.ts:39 | the fragment starts at the first `#`; the resource ends at the first `?` before it (or at the fragment), and the query is the parse of the text between that `?` and the fragment; without `?` there is no query; the resource is a prefix free of `?` and `#` |
| `Sse.UrlString` | src/sse.ts:51 | the text starts with the resource, then `?` when there is a query; with no query it is resource and fragment |
| `Sse.ParseUrlString` | src/sse.ts:39-51 | reading back the text of a URL whose separators only delimit gives the URL |
| `Sse.StreamQuery` | src/sse.ts:41-49 | `token` holds the last extra `token` value, else the usable token, else what the path had; every other key holds its last extra value or keeps the path's values |
| `Sse.OpenStream` | src/sse.ts:32-52 | one token request; the URL is resolved as in the fetch wrapper and keeps its resource and fragment; its query is the path's query rewritten as `Sse.StreamQuery` states |
| `Sse.TokenParamIffToken` | src/sse.ts:41-49 | with no `token` in the path or the extras, the `token` parameter is present exactly when a usable token was obtained, and then holds that token once |
| `Sse.StreamUrlExample` | src/sse.ts:38-51 | `/events/stream` under `/api/v1` with token `T1` gives `/api/v1/events/stream?token=T1` |

## Left out

- src/keycloak-instance.ts is not part of this model: the shared adapter and its double-initialisation guard are replaced by the settled outcomes listed above.
- The React provider and hook, and the re-export index: framework glue without behaviour of their own.
- `getState`: it returns the current snapshot (the internal object, not a copy); the model's `World.state` is that snapshot.
- The browser redirects themselves: `RedirectTarget` and `Logout` return the target URI instead of navigating.
- Base64 and JSON decoding of the token payload: the decode is the `Option<Payload>` parameter.
- The email and password passed to the local-login callback: only its settled outcome is modelled.
- The 30-second minimum validity handed to `updateToken`: its effect is inside the `TokenRefresh` outcome.
- Promise interleaving between concurrent operations: each operation runs atomically with its outcomes given up front.
- A listener that throws inside `setState` (which would divert `fetchAndSetUser` into its rollback): listeners are assumed not to throw.
- `Listeners.Broadcast`, `AuthManager.SetStateDeliversOnce`: listener callbacks are passive. They are assumed not to subscribe, unsubscribe or drive another manager operation while a round is being delivered. In the code, a callback that calls `logout()` makes later listeners of the same round see the newer snapshot, because `setState` reads the current state for each call. A callback that adds or deletes members during the round also changes who hears it.
- `AuthManager.Init`, `Lifecycle.LoadedAfterInit`, `Lifecycle.ApplyKeepsInv`: the `"token"` storage slot never fails and only this manager writes it. In the code, `localStorage.getItem`, `setItem` and `removeItem` can throw (storage disabled, quota exceeded): `fetchAndSetUser` stores the token before its `try`, so `init` would reject with `isLoading` still true, and `logout` and `getToken` would throw before their effects. Another tab or script of the same origin can also empty the slot while this manager stays authenticated, so the invariant's "authenticated implies a stored token" holds only for a single writer.
- `Sse.UrlString`, `Sse.OpenStream`: the stream URL's text is always the serialisation of its pairs. The code leaves a query it never `set` exactly as written, so `/x?a` stays `/x?a` where the model gives `/x?a=`, and an empty `?` survives where the model drops it.
- Synchronous `TypeError`s from the platform constructors: a header name or value that `Headers` rejects (`Http.NewHeaders`, `Http.AuthFetch`), and an unparsable URL text passed to `new URL` (`Sse.ParseUrl`, `Sse.OpenStream`). Each would make the returned promise reject; the model is total over all inputs.
- `fetch` and responses: a response is its status code; fetches past the end of the status sequence reject with a network error.
- `Headers` initialised from a record or another `Headers` object, and header value normalisation: the initialiser is a list of pairs.
- `new URL` resolution against the page origin, dot-segment normalisation and percent-encoding/decoding of query text; the query parser splits on `&` and the first `=` only.
- `Object.entries` ordering of integer-like keys: the extra parameters are given as the entry sequence.
- `new EventSource` and its options: the model ends at the URL.
- `typeof import.meta` being undefined: the environment is always a map, empty when nothing is defined.

=== FILE: auth_manager.dfy ===
/**
 * The token-lifecycle state machine of the auth manager.
 *
 * Every operation is a pure transition over a `World`. The asynchronous
 * collaborators (the identity-provider adapter, the profile fetch, the
 * local-login callback, the JWT payload decoder) are not called: what they
 * settled to is passed in as a parameter, and each operation runs atomically.
 */
module AuthManager {
  import opened Wrappers
  import opened Types
  import opened Listeners
  import Config

  /** Which optional callbacks the manager was created with. */
  datatype Callbacks = Callbacks(fetchUser: bool, localLogin: bool)

  /** Facts fixed when the manager is created; `origin` is the page's origin, the default redirect target. */
  datatype Setup = Setup(localMode: bool, callbacks: Callbacks, origin: string)

  /**
   * Everything the manager observes or changes: the current snapshot, the
   * single `"token"` storage slot, the listener set in insertion order, the
   * append-only log of notifications, and whether `init` installed the
   * token-expiry handler on the adapter.
   */
  datatype World = World(
    setup: Setup,
    state: AuthState,
    storage: Option<string>,
    listeners: seq<ListenerId>,
    log: seq<Notification>,
    expiryHandler: bool)

  /** A `Partial<AuthState>`: `None` leaves the field as it is. */
  datatype Update = Update(
    user: Option<Option<AuthUser>>,
    token: Option<Option<string>>,
    isLoading: Option<bool>,
    isAuthenticated: Option<bool>)

  /** An update naming all four fields. */
  function Full(user: Option<AuthUser>, token: Option<string>, isLoading: bool, isAuthenticated: bool): Update {
    Update(Some(user), Some(token), Some(isLoading), Some(isAuthenticated))
  }

  const SignOutUpdate := Full(None, None, false, false)
  const LoadingDone := Update(None, None, Some(false), None)

  /** The `realm_access` claim: the realm roles granted to the user, when listed. */
  datatype RealmAccess = RealmAccess(roles: Option<seq<string>>)

  /** A signed-in user payload, as decoded from the token's middle segment. */
  datatype Payload = Payload(
    sub: Option<string>,
    email: Option<string>,
    name: Option<string>,
    preferredUsername: Option<string>,
    picture: Option<string>,
    realmAccess: Option<RealmAccess>)

  /** What the collaborators resolving a user settled to: the profile fetch, and the payload decode (`None` when it throws). */
  datatype UserOutcome = UserOutcome(fetched: Option<AuthUser>, decoded: Option<Payload>)

  /** The identity provider's check-session result: it threw, or it settled with its flag and the adapter's token. */
  datatype SessionCheck = CheckFailed | CheckDone(authenticated: bool, token: Option<string>)

  /** `updateToken(30)`: rejected, or resolved with the `refreshed` flag and the adapter's token afterwards. */
  datatype TokenRefresh = RefreshFailed | Refreshed(refreshed: bool, token: Option<string>)

  /** What the local-login callback resolves with. */
  datatype LoginGrant = LoginGrant(token: string, user: AuthUser)

  datatype LoginError = MissingCallback | CallbackRejected

  /** A world together with the browser redirect the operation triggers, if any. */
  datatype Transition = Transition(world: World, redirect: Option<string>)

  /** A world together with the token `getToken` resolves with. */
  datatype TokenAnswer = TokenAnswer(world: World, token: Option<string>)

  /** A new manager: loading, not authenticated, holding whatever token storage held. */
  function Create(env: Config.Env, callbacks: Callbacks, origin: string, stored: Option<string>): (w: World)
    ensures w.setup.localMode == Config.IsLocalAuthMode(env)
    ensures w.state.isLoading && !w.state.isAuthenticated && w.state.user.None?
    ensures w.state.token == stored && w.storage == stored
    ensures w.listeners == [] && w.log == [] && !w.expiryHandler
  {
    World(Setup(Config.IsLocalAuthMode(env), callbacks, origin), AuthState(None, stored, true, false), stored, [], [], false)
  }

  /** `{ ...state, ...update }`: named fields are replaced, the others kept. */
  function Merge(s: AuthState, u: Update): (r: AuthState)
    ensures u.user.Some? ==> r.user == u.user.value
    ensures u.user.None? ==> r.user == s.user
    ensures u.token.Some? ==> r.token == u.token.value
    ensures u.token.None? ==> r.token == s.token
    ensures u.isLoading.Some? ==> r.isLoading == u.isLoading.value
    ensures u.isLoading.None? ==> r.isLoading == s.isLoading
    ensures u.isAuthenticated.Some? ==> r.isAuthenticated == u.isAuthenticated.value
    ensures u.isAuthenticated.None? ==> r.isAuthenticated == s.isAuthenticated
  {
    AuthState(
      u.user.GetOr(s.user),
      u.token.GetOr(s.token),
      u.isLoading.GetOr(s.isLoading),
      u.isAuthenticated.GetOr(s.isAuthenticated))
  }

  /** Merge the update, then hand the new snapshot to every current listener. */
  function SetState(w: World, u: Update): (w': World)
    ensures w'.state == Merge(w.state, u)
    ensures w'.log == w.log + Broadcast(w.listeners, w'.state)
    ensures w' == w.(state := w'.state, log := w'.log)
  {
    var s := Merge(w.state, u);
    w.(state := s, log := w.log + Broadcast(w.listeners, s))
  }

  /** With distinct listeners, `SetState` gives each current listener the merged snapshot once and nobody else anything. */
  lemma SetStateDeliversOnce(w: World, u: Update, id: ListenerId)
    requires Distinct(w.listeners)
    ensures Received(SetState(w, u).log, id)
         == Received(w.log, id) + (if id in w.listeners then [Merge(w.state, u)] else [])
  {
    var w' := SetState(w, u);
    ReceivedAppend(w.log, Broadcast(w.listeners, w'.state), id);
    BroadcastOnce(w.listeners, w'.state, id);
  }

  /** The user shown for a token whose payload decoded to `decoded`; `None` means decoding threw. */
  function UserFromToken(decoded: Option<Payload>): (u: AuthUser)
    ensures u.actualRole.None?
    ensures decoded.None? ==> u == AuthUser("", "", None, None, [], None)
    ensures decoded.Some? && decoded.value.sub.Some? ==> u.sub == decoded.value.sub.value
    ensures decoded.Some? && decoded.value.sub.None? ==> u.sub == ""
    ensures decoded.Some? && decoded.value.email.Some? ==> u.email == decoded.value.email.value
    ensures decoded.Some? && decoded.value.email.None? ==> u.email == ""
    ensures decoded.Some? && decoded.value.name.Some? ==> u.name == decoded.value.name
    ensures decoded.Some? && decoded.value.name.None? ==> u.name == decoded.value.preferredUsername
    ensures decoded.Some? ==> u.picture == decoded.value.picture
    ensures decoded.Some? && decoded.value.realmAccess.Some? && decoded.value.realmAccess.value.roles.Some?
            ==> u.roles == decoded.value.realmAccess.value.roles.value
    ensures decoded.Some? && (decoded.value.realmAccess.None? || decoded.value.realmAccess.value.roles.None?)
            ==> u.roles == []
  {
    match decoded
    case None => AuthUser("", "", None, None, [], None)
    case Some(p) =>
      var roles := if p.realmAccess.Some? then p.realmAccess.value.roles.GetOr([]) else [];
      AuthUser(p.sub.GetOr(""), p.email.GetOr(""), Coalesce(p.name, p.preferredUsername), p.picture, roles, None)
  }

  /** The user for a token: from the profile fetch when one was supplied, else decoded from the token, which never fails. */
  function ResolveUser(setup: Setup, outcome: UserOutcome): (r: Option<AuthUser>)
    ensures setup.callbacks.fetchUser ==> r == outcome.fetched
    ensures !setup.callbacks.fetchUser ==> r == Some(UserFromToken(outcome.decoded))
  {
    if setup.callbacks.fetchUser then outcome.fetched else Some(UserFromToken(outcome.decoded))
  }

  /** The world while `fetchAndSetUser` awaits the user: the token is stored, nothing else has changed. */
  function TokenPending(w: World, token: string): (w': World)
    ensures w'.storage == Some(token)
    ensures w'.state == w.state && w'.log == w.log
    ensures w' == w.(storage := w'.storage)
  {
    w.(storage := Some(token))
  }

  /** The second half of `fetchAndSetUser`: with the token already stored, sign in with the resolved user or roll back. */
  function ResolveAndSet(pending: World, token: string, outcome: UserOutcome): (w': World)
    ensures ResolveUser(pending.setup, outcome).Some? ==>
      && w'.state == AuthState(ResolveUser(pending.setup, outcome), Some(token), false, true)
      && w'.storage == pending.storage
    ensures ResolveUser(pending.setup, outcome).None? ==> w'.state == SignedOut && w'.storage.None?
    ensures w'.log == pending.log + Broadcast(pending.listeners, w'.state)
    ensures w' == pending.(state := w'.state, storage := w'.storage, log := w'.log)
  {
    match ResolveUser(pending.setup, outcome)
    case Some(user) => SetState(pending, Full(Some(user), Some(token), false, true))
    case None => SetState(pending.(storage := None), SignOutUpdate)
  }

  /** Store the token, resolve the user, and either sign in or roll back to signed out. */
  function FetchAndSetUser(w: World, token: string, outcome: UserOutcome): (w': World)
    ensures w' == ResolveAndSet(TokenPending(w, token), token, outcome)
    ensures ResolveUser(w.setup, outcome).Some? ==>
      && w'.state == AuthState(ResolveUser(w.setup, outcome), Some(token), false, true)
      && w'.storage == Some(token)
    ensures ResolveUser(w.setup, outcome).None? ==> w'.state == SignedOut && w'.storage.None?
    ensures w'.log == w.log + Broadcast(w.listeners, w'.state)
    ensures w' == w.(state := w'.state, storage := w'.storage, log := w'.log)
  {
    ResolveAndSet(TokenPending(w, token), token, outcome)
  }

  /** Use the stored token if there is a usable one, else just stop loading. */
  function InitFromStorage(w: World, outcome: UserOutcome): (w': World)
    ensures Truthy(w.storage) ==> w' == FetchAndSetUser(w, w.storage.value, outcome)
    ensures !Truthy(w.storage) ==> w' == w.(state := w.state.(isLoading := false), log := w'.log)
    ensures !w'.state.isLoading
    ensures w'.log == w.log + Broadcast(w.listeners, w'.state)
  {
    if Truthy(w.storage) then FetchAndSetUser(w, w.storage.value, outcome)
    else SetState(w, LoadingDone)
  }

  /**
   * Identity-provider start-up: with a live session and a usable token, resolve
   * the user and install the expiry handler; otherwise, and also when the check
   * threw, fall back to the stored token.
   */
  function InitKeycloak(w: World, check: SessionCheck, outcome: UserOutcome): (w': World)
    ensures check.CheckDone? && check.authenticated && Truthy(check.token) ==>
      w' == FetchAndSetUser(w, check.token.value, outcome).(expiryHandler := true)
    ensures !(check.CheckDone? && check.authenticated && Truthy(check.token)) ==>
      w' == InitFromStorage(w, outcome)
  {
    match check
    case CheckDone(authenticated, token) =>
      if authenticated && Truthy(token) then FetchAndSetUser(w, token.value, outcome).(expiryHandler := true)
      else InitFromStorage(w, outcome)
    case CheckFailed => InitFromStorage(w, outcome)
  }

  /** `init()`: every branch ends with loading off and exactly one notification round. */
  function Init(w: World, check: SessionCheck, outcome: UserOutcome): (w': World)
    ensures !w'.state.isLoading
    ensures w'.log == w.log + Broadcast(w.listeners, w'.state)
    ensures w'.setup == w.setup && w'.listeners == w.listeners
    ensures w.setup.localMode && !Truthy(w.storage) ==>
      w' == w.(state := w.state.(isLoading := false), log := w'.log)
    ensures w'.expiryHandler <==>
      w.expiryHandler || (!w.setup.localMode && check.CheckDone? && check.authenticated && Truthy(check.token))
    ensures !w.state.isAuthenticated && w'.state.isAuthenticated ==>
      w'.state.user.Some? && Truthy(w'.state.token) && w'.storage == w'.state.token
  {
    if w.setup.localMode then InitFromStorage(w, outcome) else InitKeycloak(w, check, outcome)
  }

  /** `login()` and `logout()` redirect to the given URI, defaulting to the page's origin. */
  function RedirectTarget(w: World, redirectUri: Option<string>): (target: string)
    ensures redirectUri.Some? ==> target == redirectUri.value
    ensures redirectUri.None? ==> target == w.setup.origin
  {
    redirectUri.GetOr(w.setup.origin)
  }

  /** `logout()`: clear the slot, sign out, and leave the identity provider only when a session is live outside local mode. */
  function Logout(w: World, session: bool, redirectUri: Option<string>): (r: Transition)
    ensures r.world.state == SignedOut && r.world.storage.None?
    ensures r.world.log == w.log + Broadcast(w.listeners, SignedOut)
    ensures r.world == w.(state := SignedOut, storage := None, log := r.world.log)
    ensures r.redirect.Some? <==> !w.setup.localMode && session
    ensures r.redirect.Some? ==> r.redirect.value == RedirectTarget(w, redirectUri)
  {
    var w' := SetState(w.(storage := None), SignOutUpdate);
    Transition(w', if !w.setup.localMode && session then Some(RedirectTarget(w, redirectUri)) else None)
  }

  /** Logging out again changes neither the snapshot nor the slot, and notifies once more. */
  lemma LogoutIdempotent(w: World, s1: bool, s2: bool, r1: Option<string>, r2: Option<string>)
    ensures var once := Logout(w, s1, r1).world;
            var twice := Logout(once, s2, r2).world;
            && twice.state == once.state && twice.storage == once.storage
            && twice.listeners == once.listeners
            && twice.log == once.log + Broadcast(once.listeners, SignedOut)
  {
  }

  /**
   * The adapter's token expired. A refresh that produced a usable token stores
   * it and changes only the snapshot's token; a rejected refresh logs out;
   * without an installed handler nothing happens.
   */
  function OnTokenExpired(w: World, refresh: TokenRefresh, session: bool): (r: Transition)
    ensures !w.expiryHandler ==> r == Transition(w, None)
    ensures w.expiryHandler && refresh.Refreshed? && refresh.refreshed && Truthy(refresh.token) ==>
      && r.redirect.None?
      && r.world.storage == refresh.token
      && r.world.state == w.state.(token := refresh.token)
      && r.world.log == w.log + Broadcast(w.listeners, r.world.state)
      && r.world == w.(state := r.world.state, storage := r.world.storage, log := r.world.log)
    ensures w.expiryHandler && refresh.Refreshed? && !(refresh.refreshed && Truthy(refresh.token)) ==>
      r == Transition(w, None)
    ensures w.expiryHandler && refresh.RefreshFailed? ==> r == Logout(w, session, None)
  {
    if !w.expiryHandler then Transition(w, None)
    else match refresh
      case Refreshed(refreshed, token) =>
        if refreshed && Truthy(token) then
          Transition(SetState(w.(storage := token), Update(None, Some(token), None, None)), None)
        else Transition(w, None)
      case RefreshFailed => Logout(w, session, None)
  }

  /**
   * `getToken()`: outside local mode with a live session, a refresh that leaves a
   * usable token stores and returns it; every other path answers from the slot.
   */
  function GetToken(w: World, session: bool, refresh: TokenRefresh): (r: TokenAnswer)
    ensures r.token == r.world.storage
    ensures r.world == w.(storage := r.world.storage)
    ensures w.setup.localMode ==> r == TokenAnswer(w, w.storage)
    ensures !w.setup.localMode && session && refresh.Refreshed? && Truthy(refresh.token) ==> r.token == refresh.token
    ensures !(!w.setup.localMode && session && refresh.Refreshed? && Truthy(refresh.token)) ==> r == TokenAnswer(w, w.storage)
  {
    if !w.setup.localMode && session && refresh.Refreshed? && Truthy(refresh.token) then
      TokenAnswer(w.(storage := refresh.token), refresh.token)
    else TokenAnswer(w, w.storage)
  }

  /** `localLogin()`: fails before any change without a callback, propagates the callback's rejection, else signs in. */
  function LocalLogin(w: World, grant: Option<LoginGrant>): (r: Result<World, LoginError>)
    ensures !w.setup.callbacks.localLogin ==> r == Failure(MissingCallback)
    ensures w.setup.callbacks.localLogin && grant.None? ==> r == Failure(CallbackRejected)
    ensures w.setup.callbacks.localLogin && grant.Some? ==>
      && r.Success?
      && r.value.storage == Some(grant.value.token)
      && r.value.state == AuthState(Some(grant.value.user), Some(grant.value.token), false, true)
      && r.value.log == w.log + Broadcast(w.listeners, r.value.state)
      && r.value == w.(state := r.value.state, storage := r.value.storage, log := r.value.log)
  {
    if !w.setup.callbacks.localLogin then Failure(MissingCallback)
    else match grant
      case None => Failure(CallbackRejected)
      case Some(g) =>
        Success(SetState(w.(storage := Some(g.token)), Full(Some(g.user), Some(g.token), false, true)))
  }

  /** `onStateChange(cb)`: subscribe; the returned handle is the listener's identity. */
  function OnStateChange(w: World, id: ListenerId): (w': World)
    ensures id in w'.listeners
    ensures w.listeners <= w'.listeners
    ensures forall x :: x in w'.listeners <==> x in w.listeners || x == id
    ensures Distinct(w.listeners) ==> Distinct(w'.listeners)
    ensures id in w.listeners ==> w' == w
    ensures id !in w.listeners ==> w'.listeners == w.listeners + [id]
    ensures w' == w.(listeners := w'.listeners)
  {
    w.(listeners := Add(w.listeners, id))
  }

  /** Calling the handle `onStateChange` returned: that listener leaves the set, the others stay. */
  function Unsubscribe(w: World, id: ListenerId): (w': World)
    ensures id !in w'.listeners
    ensures forall x :: x != id ==> (x in w'.listeners <==> x in w.listeners)
    ensures Distinct(w.listeners) ==> Distinct(w'.listeners)
    ensures id !in w.listeners ==> w' == w
    ensures Distinct(w.listeners) && id in w.listeners ==>
      var i := Position(w.listeners, id);
      w'.listeners == w.listeners[..i] + w.listeners[i + 1..]
    ensures w' == w.(listeners := w'.listeners)
  {
    w.(listeners := Remove(w.listeners, id))
  }

  /** After unsubscribing, a state change reaches every other listener exactly as it would have before. */
  lemma UnsubscribeSparesOthers(w: World, u: Update, id: ListenerId, other: ListenerId)
    requires Distinct(w.listeners)
    ensures Received(SetState(Unsubscribe(w, id), u).log, id) == Received(w.log, id)
    ensures other != id ==>
      Received(SetState(Unsubscribe(w, id), u).log, other) == Received(SetState(w, u).log, other)
  {
    SetStateDeliversOnce(Unsubscribe(w, id), u, id);
    SetStateDeliversOnce(Unsubscribe(w, id), u, other);
    SetStateDeliversOnce(w, u, other);
  }
}

=== FILE: config.dfy ===
/** Identity-provider configuration from build-time environment variables, and local-mode detection. */
module Config {
  import opened Wrappers
  import opened Text
  import opened Types

  /** The build-time environment: the variables that are defined, with their values. */
  type Env = map<string, string>

  /** Caller-supplied defaults; each field may be left out. */
  datatype PartialConfig = PartialConfig(url: Option<string>, realm: Option<string>, clientId: Option<string>)

  const NoDefaults := PartialConfig(None, None, None)

  const UrlVar := "VITE_KEYCLOAK_URL"
  const RealmVar := "VITE_KEYCLOAK_REALM"
  const ClientIdVar := "VITE_KEYCLOAK_CLIENT_ID"
  const ApiUrlVar := "VITE_API_URL"
  const ForceKeycloakVar := "VITE_FORCE_KEYCLOAK"

  const DefaultUrl := "https://auth.cocoon-ai.com"
  const DefaultRealm := "cai-portal"
  const DefaultClientId := "cai-portal-frontend"

  function EnvGet(env: Env, key: string): Option<string> {
    if key in env then Some(env[key]) else None
  }

  /** `v` is what the fallback chain environment, then default, then literal yields. */
  predicate FallsBack(v: string, env: Env, key: string, fallback: Option<string>, literal: string) {
    || (key in env && v == env[key])
    || (key !in env && fallback.Some? && v == fallback.value)
    || (key !in env && fallback.None? && v == literal)
  }

  /** `env[key] ?? fallback ?? literal` */
  function Resolve(env: Env, key: string, fallback: Option<string>, literal: string): (v: string)
    ensures FallsBack(v, env, key, fallback, literal)
  {
    Coalesce(EnvGet(env, key), fallback).GetOr(literal)
  }

  /** The configuration: each field through its own fallback chain. */
  function CreateKeycloakConfig(env: Env, defaults: PartialConfig): (c: KeycloakAuthConfig)
    ensures FallsBack(c.url, env, UrlVar, defaults.url, DefaultUrl)
    ensures FallsBack(c.realm, env, RealmVar, defaults.realm, DefaultRealm)
    ensures FallsBack(c.clientId, env, ClientIdVar, defaults.clientId, DefaultClientId)
  {
    KeycloakAuthConfig(
      Resolve(env, UrlVar, defaults.url, DefaultUrl),
      Resolve(env, RealmVar, defaults.realm, DefaultRealm),
      Resolve(env, ClientIdVar, defaults.clientId, DefaultClientId))
  }

  /** A defined variable wins over the default even when it is the empty string. */
  lemma EmptyEnvValueWins(env: Env, defaults: PartialConfig)
    requires UrlVar in env && env[UrlVar] == ""
    requires defaults.url.Some?
    ensures CreateKeycloakConfig(env, defaults).url == ""
  {
  }

  /** Each field depends only on its own variable and its own default. */
  lemma FieldsIndependent(env1: Env, env2: Env, d1: PartialConfig, d2: PartialConfig)
    ensures EnvGet(env1, UrlVar) == EnvGet(env2, UrlVar) && d1.url == d2.url ==>
      CreateKeycloakConfig(env1, d1).url == CreateKeycloakConfig(env2, d2).url
    ensures EnvGet(env1, RealmVar) == EnvGet(env2, RealmVar) && d1.realm == d2.realm ==>
      CreateKeycloakConfig(env1, d1).realm == CreateKeycloakConfig(env2, d2).realm
    ensures EnvGet(env1, ClientIdVar) == EnvGet(env2, ClientIdVar) && d1.clientId == d2.clientId ==>
      CreateKeycloakConfig(env1, d1).clientId == CreateKeycloakConfig(env2, d2).clientId
  {
  }

  /** With nothing defined, the hard-coded literals are used. */
  lemma LiteralDefaults()
    ensures CreateKeycloakConfig(map[], NoDefaults)
         == KeycloakAuthConfig("https://auth.cocoon-ai.com", "cai-portal", "cai-portal-frontend")
  {
  }

  /** `sub` occurs somewhere in `s`. */
  ghost predicate Mentions(s: string, sub: string) {
    exists i: nat :: OccursAt(s, sub, i)
  }

  /** Local mode: the API URL points at this machine, unless the identity provider is forced. */
  function IsLocalAuthMode(env: Env): (local: bool)
    ensures EnvGet(env, ForceKeycloakVar) == Some("true") ==> !local
    ensures EnvGet(env, ForceKeycloakVar) != Some("true") ==>
      (local <==> ApiUrlVar in env && (Mentions(env[ApiUrlVar], "localhost") || Mentions(env[ApiUrlVar], "127.0.0.1")))
  {
    if EnvGet(env, ForceKeycloakVar) == Some("true") then false
    else
      var apiUrl := EnvGet(env, ApiUrlVar).GetOr("");
      IncludesIffOccurs(apiUrl, "localhost");
      IncludesIffOccurs(apiUrl, "127.0.0.1");
      Includes(apiUrl, "localhost") || Includes(apiUrl, "127.0.0.1")
  }
}

=== FILE: http.dfy ===
/**
 * The authenticated fetch wrapper: URL resolution, header decoration, and a
 * single retry when the server answers 401.
 *
 * `getToken(k)` is what the manager's `getToken()` resolves with on its k-th
 * call during one request; `statuses[k]` is the status of the k-th fetch, and a
 * fetch past the end of `statuses` rejects with a network error.
 */
module Http {
  import opened Wrappers
  import opened Text
  import opened Types

  /** A `Headers` object: lower-cased names to values. */
  type Headers = map<string, string>

  /** `headers.get(name)`: names compare case-insensitively. */
  function HeaderGet(h: Headers, name: string): Option<string> {
    if Lower(name) in h then Some(h[Lower(name)]) else None
  }

  /** `headers.set(name, value)`: the name now holds exactly `value`; other names are untouched. */
  function HeaderSet(h: Headers, name: string, value: string): (h': Headers)
    ensures HeaderGet(h', name) == Some(value)
    ensures forall n :: Lower(n) != Lower(name) ==> HeaderGet(h', n) == HeaderGet(h, n)
  {
    h[Lower(name) := value]
  }

  /** `headers.append(name, value)`: a second value joins the first with ", ". */
  function HeaderAppend(h: Headers, name: string, value: string): (h': Headers)
    ensures HeaderGet(h, name).None? ==> HeaderGet(h', name) == Some(value)
    ensures HeaderGet(h, name).Some? ==> HeaderGet(h', name) == Some(HeaderGet(h, name).value + ", " + value)
    ensures forall n :: Lower(n) != Lower(name) ==> HeaderGet(h', n) == HeaderGet(h, n)
  {
    match HeaderGet(h, name)
    case None => HeaderSet(h, name, value)
    case Some(first) => HeaderSet(h, name, first + ", " + value)
  }

  /** `new Headers(init)` for a list of name/value pairs. */
  function NewHeaders(init: seq<(string, string)>): (h: Headers)
    ensures forall n :: HeaderGet(h, n).Some? <==> exists i :: 0 <= i < |init| && Lower(init[i].0) == Lower(n)
    decreases |init|
  {
    if |init| == 0 then map[]
    else
      var last := |init| - 1;
      var prev := NewHeaders(init[..last]);
      NamesAfterAppend(prev, init, last);
      HeaderAppend(prev, init[last].0, init[last].1)
  }

  /** Appending the last pair adds its name to the names the earlier pairs gave. */
  lemma NamesAfterAppend(prev: Headers, init: seq<(string, string)>, last: nat)
    requires last == |init| - 1
    requires forall n :: HeaderGet(prev, n).Some? <==> exists i :: 0 <= i < last && Lower(init[..last][i].0) == Lower(n)
    ensures var h := HeaderAppend(prev, init[last].0, init[last].1);
      forall n :: HeaderGet(h, n).Some? <==> exists i :: 0 <= i < |init| && Lower(init[i].0) == Lower(n)
  {
    forall n {
      NameAfterAppend(prev, init, last, n, HeaderGet(prev, n).Some?);
    }
  }

  lemma NameAfterAppend(prev: Headers, init: seq<(string, string)>, last: nat, n: string, present: bool)
    requires last == |init| - 1
    requires present == HeaderGet(prev, n).Some?
    requires present <==> exists i :: 0 <= i < last && Lower(init[..last][i].0) == Lower(n)
    ensures HeaderGet(HeaderAppend(prev, init[last].0, init[last].1), n).Some?
        <==> exists i :: 0 <= i < |init| && Lower(init[i].0) == Lower(n)
  {
    var name := init[last].0;
    var h := HeaderAppend(prev, name, init[last].1);
    if Lower(n) == Lower(name) {
      assert HeaderGet(h, n) == HeaderGet(h, name);
      assert Lower(init[last].0) == Lower(n);
    } else {
      assert HeaderGet(h, n) == HeaderGet(prev, n);
      if exists i :: 0 <= i < |init| && Lower(init[i].0) == Lower(n) {
        var i :| 0 <= i < |init| && Lower(init[i].0) == Lower(n);
        assert i < last && init[..last][i] == init[i];
      }
      if present {
        var i :| 0 <= i < last && Lower(init[..last][i].0) == Lower(n);
        assert init[..last][i] == init[i];
      }
    }
  }

  /** A request body: none, a string, or any other kind (form data, blob, stream...). */
  datatype Body = NoBody | TextBody(text: string) | OtherBody

  /** The caller's options; `headers` is the `HeadersInit` given as pairs. */
  datatype FetchOptions = FetchOptions(headers: seq<(string, string)>, body: Body, skipAuth: bool)

  /** What is handed to `fetch`: the URL, the caller's options, and the decorated headers. */
  datatype Request = Request(url: string, options: FetchOptions, headers: Headers)

  datatype FetchFailure = NetworkError

  /** Everything one call of the wrapper did: the fetches it issued, how often it asked for a token, what it returned. */
  datatype FetchRun = FetchRun(requests: seq<Request>, tokenCalls: nat, response: Result<int, FetchFailure>)

  const Unauthorized := 401
  const JsonType := "application/json"

  /** Paths starting with "http" are taken as they are; anything else is appended to the base. */
  function ResolveUrl(baseUrl: string, path: string): (url: string)
    ensures StartsWith(path, "http") ==> url == path
    ensures !StartsWith(path, "http") ==> url == baseUrl + path
  {
    if StartsWith(path, "http") then path else baseUrl + path
  }

  /** The resolved URL always ends with the path, and a relative one starts with the base. */
  lemma ResolveUrlKeepsPath(baseUrl: string, path: string)
    ensures var url := ResolveUrl(baseUrl, path);
            && |path| <= |url| && url[|url| - |path|..] == path
            && (!StartsWith(path, "http") ==> StartsWith(url, baseUrl))
  {
    var url := ResolveUrl(baseUrl, path);
    if !StartsWith(path, "http") {
      assert url[..|baseUrl|] == baseUrl;
      assert url[|url| - |path|..] == path;
    }
  }

  function Bearer(token: string): string {
    "Bearer " + token
  }

  /** A non-empty string body. */
  predicate HasTextBody(opts: FetchOptions) {
    opts.body.TextBody? && opts.body.text != ""
  }

  /**
   * The first request's headers: the caller's, with `Authorization` set when
   * auth is on and the token is usable, and `Content-Type` defaulted to JSON
   * for a non-empty string body when the caller gave none.
   */
  function Decorate(opts: FetchOptions, token: Option<string>): (h: Headers)
    ensures !opts.skipAuth && Truthy(token) ==> HeaderGet(h, "Authorization") == Some(Bearer(token.value))
    ensures !(!opts.skipAuth && Truthy(token)) ==>
      HeaderGet(h, "Authorization") == HeaderGet(NewHeaders(opts.headers), "Authorization")
    ensures HeaderGet(NewHeaders(opts.headers), "Content-Type").Some? ==>
      HeaderGet(h, "Content-Type") == HeaderGet(NewHeaders(opts.headers), "Content-Type")
    ensures HeaderGet(NewHeaders(opts.headers), "Content-Type").None? ==>
      HeaderGet(h, "Content-Type") == (if HasTextBody(opts) then Some(JsonType) else None)
    ensures forall n :: Lower(n) != Lower("Authorization") && Lower(n) != Lower("Content-Type") ==>
      HeaderGet(h, n) == HeaderGet(NewHeaders(opts.headers), n)
  {
    var h0 := NewHeaders(opts.headers);
    var h1 := if !opts.skipAuth && Truthy(token) then HeaderSet(h0, "Authorization", Bearer(token.value)) else h0;
    assert Lower("Content-Type") != Lower("Authorization") by {
      assert |Lower("Content-Type")| != |Lower("Authorization")|;
    }
    if HeaderGet(h1, "Content-Type").None? && HasTextBody(opts) then HeaderSet(h1, "Content-Type", JsonType) else h1
  }

  /** The settled result of the k-th fetch. */
  function FetchResult(statuses: seq<int>, k: nat): (r: Result<int, FetchFailure>)
    ensures k < |statuses| ==> r == Success(statuses[k])
    ensures k >= |statuses| ==> r == Failure(NetworkError)
  {
    if k < |statuses| then Success(statuses[k]) else Failure(NetworkError)
  }

  /** The wrapper returned by `createAuthFetch(baseUrl, manager)`, applied to one path. */
  function AuthFetch(baseUrl: string, path: string, opts: FetchOptions, localMode: bool,
                     getToken: nat -> Option<string>, statuses: seq<int>): (run: FetchRun)
    ensures 1 <= |run.requests| <= 2
    ensures forall i :: 0 <= i < |run.requests| ==>
      run.requests[i].url == ResolveUrl(baseUrl, path) && run.requests[i].options == opts
    ensures run.requests[0].headers == Decorate(opts, if opts.skipAuth then None else getToken(0))
    ensures |run.requests| == 2 <==>
      (0 < |statuses| && statuses[0] == Unauthorized && !opts.skipAuth && !localMode && Truthy(getToken(1)))
    ensures |run.requests| == 2 ==>
      run.requests[1].headers == HeaderSet(run.requests[0].headers, "Authorization", Bearer(getToken(1).value))
    ensures run.response == FetchResult(statuses, |run.requests| - 1)
    ensures opts.skipAuth <==> run.tokenCalls == 0
    ensures run.tokenCalls <= 2
    ensures run.tokenCalls == 2 <==>
      (0 < |statuses| && statuses[0] == Unauthorized && !opts.skipAuth && !localMode)
  {
    var url := ResolveUrl(baseUrl, path);
    var calls: nat := if opts.skipAuth then 0 else 1;
    var first := Request(url, opts, Decorate(opts, if opts.skipAuth then None else getToken(0)));
    match FetchResult(statuses, 0)
    case Failure(e) => FetchRun([first], calls, Failure(e))
    case Success(status) =>
      if status == Unauthorized && !opts.skipAuth && !localMode then
        var renewed := getToken(1);
        if Truthy(renewed) then
          var retry := first.(headers := HeaderSet(first.headers, "Authorization", Bearer(renewed.value)));
          FetchRun([first, retry], 2, FetchResult(statuses, 1))
        else FetchRun([first], 2, Success(status))
      else FetchRun([first], calls, Success(status))
  }

  /** The retry differs from the first request only in its `Authorization` header. */
  lemma RetryChangesOnlyAuthorization(baseUrl: string, path: string, opts: FetchOptions, localMode: bool,
                                      getToken: nat -> Option<string>, statuses: seq<int>, n: string)
    requires Lower(n) != Lower("Authorization")
    ensures var run := AuthFetch(baseUrl, path, opts, localMode, getToken, statuses);
            |run.requests| == 2 ==>
              && run.requests[1].url == run.requests[0].url
              && run.requests[1].options == run.requests[0].options
              && HeaderGet(run.requests[1].headers, n) == HeaderGet(run.requests[0].headers, n)
  {
  }

  /** A 401 answered by a 200 after a fresh token: the caller gets the 200, after exactly two fetches. */
  lemma RetrySucceeds(baseUrl: string, path: string, opts: FetchOptions, getToken: nat -> Option<string>)
    requires !opts.skipAuth && Truthy(getToken(1))
    ensures var run := AuthFetch(baseUrl, path, opts, false, getToken, [401, 200]);
            |run.requests| == 2 && run.response == Success(200)
  {
  }

  /** A 401 that persists is handed back as a response, not raised. */
  lemma PersistentUnauthorizedReturned(baseUrl: string, path: string, opts: FetchOptions, localMode: bool,
                                       getToken: nat -> Option<string>)
    ensures AuthFetch(baseUrl, path, opts, localMode, getToken, [401, 401]).response == Success(401)
  {
  }
}

=== FILE: lifecycle.dfy ===
/**
 * Sequences of manager operations, and the properties that hold in every
 * state the manager can reach from its creation.
 */
module Lifecycle {
  import opened Wrappers
  import opened Types
  import opened Listeners
  import opened AuthManager
  import Config

  /** One public operation, together with what its collaborators settled to. */
  datatype Step =
    | InitStep(check: SessionCheck, outcome: UserOutcome)
    | ExpiryStep(refresh: TokenRefresh, session: bool)
    | GetTokenStep(session: bool, refresh: TokenRefresh)
    | LocalLoginStep(grant: Option<LoginGrant>)
    | LogoutStep(session: bool, redirectUri: Option<string>)
    | SubscribeStep(id: ListenerId)
    | UnsubscribeStep(id: ListenerId)

  /** Every step appends at most one notification round, carrying the snapshot it leaves behind. */
  function Apply(w: World, step: Step): (w': World)
    ensures w'.setup == w.setup
    ensures w'.log == w.log || w'.log == w.log + Broadcast(w.listeners, w'.state)
    ensures !step.SubscribeStep? && !step.UnsubscribeStep? ==> w'.listeners == w.listeners
    ensures step.LocalLoginStep? && (!w.setup.callbacks.localLogin || step.grant.None?) ==> w' == w
  {
    match step
    case InitStep(check, outcome) => Init(w, check, outcome)
    case ExpiryStep(refresh, session) => OnTokenExpired(w, refresh, session).world
    case GetTokenStep(session, refresh) => GetToken(w, session, refresh).world
    case LocalLoginStep(grant) =>
      (match LocalLogin(w, grant)
       case Success(w') => w'
       case Failure(_) => w)
    case LogoutStep(session, redirectUri) => Logout(w, session, redirectUri).world
    case SubscribeStep(id) => OnStateChange(w, id)
    case UnsubscribeStep(id) => Unsubscribe(w, id)
  }

  function Run(w: World, steps: seq<Step>): World
    decreases |steps|
  {
    if |steps| == 0 then w else Run(Apply(w, steps[0]), steps[1..])
  }

  lemma {:induction false} RunAppend(w: World, a: seq<Step>, b: seq<Step>)
    ensures Run(w, a + b) == Run(Run(w, a), b)
    decreases |a|
  {
    if |a| == 0 {
      assert a + b == b;
    } else {
      assert (a + b)[1..] == a[1..] + b;
      RunAppend(Apply(w, a[0]), a[1..], b);
    }
  }

  /**
   * The manager's invariant: an authenticated snapshot carries a token and a
   * user and the slot is not empty; the expiry handler is only installed after
   * loading finished outside local mode; the listener set has no duplicates.
   */
  predicate Inv(w: World) {
    && (w.state.isAuthenticated ==> w.state.token.Some? && w.state.user.Some? && w.storage.Some?)
    && (w.expiryHandler ==> !w.state.isLoading && !w.setup.localMode)
    && Distinct(w.listeners)
  }

  /** The world `fetchAndSetUser` exposes while it awaits the user, and the one it leaves, both keep the invariant. */
  lemma TokenPendingKeepsInv(w: World, token: string, outcome: UserOutcome)
    requires Inv(w)
    ensures Inv(TokenPending(w, token))
    ensures Inv(ResolveAndSet(TokenPending(w, token), token, outcome))
  {
  }

  lemma ApplyKeepsInv(w: World, step: Step)
    requires Inv(w)
    ensures Inv(Apply(w, step))
  {
    match step
    case SubscribeStep(id) =>
      assert Apply(w, step).listeners == Add(w.listeners, id);
    case UnsubscribeStep(id) =>
    case _ =>
  }

  lemma {:induction false} RunKeepsInv(w: World, steps: seq<Step>)
    requires Inv(w)
    ensures Inv(Run(w, steps))
    decreases |steps|
  {
    if |steps| > 0 {
      ApplyKeepsInv(w, steps[0]);
      RunKeepsInv(Apply(w, steps[0]), steps[1..]);
    }
  }

  /** In every reachable state, an authenticated snapshot has a token (the converse is not promised, see `StoredTokenNotAuthenticated`). */
  lemma AuthenticatedHasToken(env: Config.Env, callbacks: Callbacks, origin: string, stored: Option<string>, steps: seq<Step>)
    ensures var w := Run(Create(env, callbacks, origin, stored), steps);
            Inv(w) && (w.state.isAuthenticated ==> w.state.token.Some?)
  {
    RunKeepsInv(Create(env, callbacks, origin, stored), steps);
  }

  /** A fresh manager can hold a token without being authenticated. */
  lemma StoredTokenNotAuthenticated(env: Config.Env, callbacks: Callbacks, origin: string, t: string)
    ensures var w := Create(env, callbacks, origin, Some(t));
            w.state.token.Some? && !w.state.isAuthenticated
  {
  }

  /** Once loading is over, no sequence of operations turns it back on. */
  lemma {:induction false} LoadedStaysLoaded(w: World, steps: seq<Step>)
    requires !w.state.isLoading
    ensures !Run(w, steps).state.isLoading
    decreases |steps|
  {
    if |steps| > 0 {
      var w' := Apply(w, steps[0]);
      assert !w'.state.isLoading by {
        match steps[0]
        case ExpiryStep(refresh, session) =>
        case _ =>
      }
      LoadedStaysLoaded(w', steps[1..]);
    }
  }

  /** Whatever happened before and after, a history that contains an `init` ends not loading. */
  lemma LoadedAfterInit(w: World, before: seq<Step>, check: SessionCheck, outcome: UserOutcome, after: seq<Step>)
    ensures !Run(w, before + [InitStep(check, outcome)] + after).state.isLoading
  {
    RunAppend(w, before + [InitStep(check, outcome)], after);
    RunAppend(w, before, [InitStep(check, outcome)]);
    var mid := Run(w, before + [InitStep(check, outcome)]);
    LoadedStaysLoaded(mid, after);
  }

  /** A listener outside the set that does not subscribe again hears nothing from any step. */
  lemma {:induction false} SilentWhileAbsent(w: World, id: ListenerId, steps: seq<Step>)
    requires id !in w.listeners
    requires forall k :: 0 <= k < |steps| ==> steps[k] != SubscribeStep(id)
    ensures Received(Run(w, steps).log, id) == Received(w.log, id)
    decreases |steps|
  {
    if |steps| > 0 {
      var w' := Apply(w, steps[0]);
      if w'.log != w.log {
        ReceivedAppend(w.log, Broadcast(w.listeners, w'.state), id);
        BroadcastMisses(w.listeners, w'.state, id);
      }
      assert id !in w'.listeners by {
        match steps[0]
        case SubscribeStep(x) =>
          assert x != id;
        case _ =>
      }
      SilentWhileAbsent(w', id, steps[1..]);
    }
  }

  /** After its handle is called, a listener receives nothing more until it subscribes again. */
  lemma UnsubscribedHearsNothing(w: World, id: ListenerId, steps: seq<Step>)
    requires forall k :: 0 <= k < |steps| ==> steps[k] != SubscribeStep(id)
    ensures Received(Run(Unsubscribe(w, id), steps).log, id) == Received(w.log, id)
  {
    SilentWhileAbsent(Unsubscribe(w, id), id, steps);
  }

  /** In local mode the identity provider is never consulted: the check's outcome does not matter. */
  lemma LocalInitIgnoresCheck(w: World, c1: SessionCheck, c2: SessionCheck, outcome: UserOutcome)
    requires w.setup.localMode
    ensures Init(w, c1, outcome) == Init(w, c2, outcome)
  {
  }

  /** A check that threw and a check that found no usable session start up the same way. */
  lemma FailedCheckIsFallback(w: World, outcome: UserOutcome, authenticated: bool, token: Option<string>)
    requires !(authenticated && Truthy(token))
    ensures Init(w, CheckFailed, outcome) == Init(w, CheckDone(authenticated, token), outcome)
  {
  }
}

=== FILE: listeners.dfy ===
/** The listener set of the auth manager and the log of notifications it delivers. */
module Listeners {
  import opened Types

  /** The identity of a subscribed callback. */
  type ListenerId = nat

  /** One delivery of a snapshot to one listener. */
  datatype Notification = Notification(listener: ListenerId, snapshot: AuthState)

  /** A JavaScript `Set` holds each member once. */
  predicate Distinct(ls: seq<ListenerId>) {
    forall i, j :: 0 <= i < j < |ls| ==> ls[i] != ls[j]
  }

  /** `listeners.add(id)`: a member already present keeps its place, a new one goes last. */
  function Add(ls: seq<ListenerId>, id: ListenerId): (r: seq<ListenerId>)
    ensures forall x :: x in r <==> x in ls || x == id
    ensures ls <= r
    ensures Distinct(ls) ==> Distinct(r)
  {
    if id in ls then ls else ls + [id]
  }

  /** Where `id` sits in the iteration order. */
  function Position(ls: seq<ListenerId>, id: ListenerId): (i: nat)
    requires id in ls
    ensures i < |ls| && ls[i] == id && id !in ls[..i]
    decreases |ls|
  {
    if ls[0] == id then 0
    else
      var j := Position(ls[1..], id);
      assert ls[..j + 1] == [ls[0]] + ls[1..][..j];
      j + 1
  }

  /** `listeners.delete(id)`: the other members keep their order. */
  function Remove(ls: seq<ListenerId>, id: ListenerId): (r: seq<ListenerId>)
    ensures forall x :: x in r <==> x in ls && x != id
    ensures Distinct(ls) ==> Distinct(r)
    ensures id !in ls ==> r == ls
    ensures Distinct(ls) && id in ls ==> r == ls[..Position(ls, id)] + ls[Position(ls, id) + 1..]
    decreases |ls|
  {
    if |ls| == 0 then []
    else if ls[0] == id then
      DistinctCons(ls[0], ls[1..]);
      Remove(ls[1..], id)
    else
      var rest := Remove(ls[1..], id);
      DistinctCons(ls[0], ls[1..]);
      DistinctCons(ls[0], rest);
      assert id !in ls ==> [ls[0]] + rest == ls;
      CutAfterHead(ls, id, rest);
      [ls[0]] + rest
  }

  /** Cutting `id` out of the tail and keeping the head cuts it out of the whole at one position further on. */
  lemma CutAfterHead(ls: seq<ListenerId>, id: ListenerId, rest: seq<ListenerId>)
    requires |ls| > 0 && ls[0] != id
    requires Distinct(ls[1..]) && id in ls[1..] ==>
      var j := Position(ls[1..], id); rest == ls[1..][..j] + ls[1..][j + 1..]
    ensures Distinct(ls) && id in ls ==>
      var i := Position(ls, id); [ls[0]] + rest == ls[..i] + ls[i + 1..]
  {
    if !(Distinct(ls) && id in ls) {
      return;
    }
    DistinctCons(ls[0], ls[1..]);
    assert id in ls[1..];
    var tail := ls[1..];
    var j := Position(tail, id);
    assert Position(ls, id) == j + 1;
    assert ls[..j + 1] == [ls[0]] + tail[..j];
    assert ls[j + 2..] == tail[j + 1..];
  }

  /** A sequence with a head is distinct when its tail is and the head does not recur. */
  lemma DistinctCons(x: ListenerId, rest: seq<ListenerId>)
    ensures Distinct([x] + rest) <==> x !in rest && Distinct(rest)
  {
    var ls := [x] + rest;
    if Distinct(ls) {
      forall i, j | 0 <= i < j < |rest| ensures rest[i] != rest[j] {
        assert rest[i] == ls[i + 1] && rest[j] == ls[j + 1];
      }
      forall j | 0 <= j < |rest| ensures rest[j] != x {
        assert rest[j] == ls[j + 1] && x == ls[0];
      }
    }
  }

  /** `listeners.forEach(cb => cb(s))`: one notification per listener, in iteration order. */
  function Broadcast(ls: seq<ListenerId>, s: AuthState): (ns: seq<Notification>)
    ensures |ns| == |ls|
    ensures forall i :: 0 <= i < |ls| ==> ns[i] == Notification(ls[i], s)
    decreases |ls|
  {
    if |ls| == 0 then [] else [Notification(ls[0], s)] + Broadcast(ls[1..], s)
  }

  /** The snapshots `id` was handed, in delivery order. */
  function Received(log: seq<Notification>, id: ListenerId): seq<AuthState>
    decreases |log|
  {
    if |log| == 0 then []
    else (if log[0].listener == id then [log[0].snapshot] else []) + Received(log[1..], id)
  }

  lemma {:induction false} ReceivedAppend(a: seq<Notification>, b: seq<Notification>, id: ListenerId)
    ensures Received(a + b, id) == Received(a, id) + Received(b, id)
    decreases |a|
  {
    if |a| == 0 {
      assert a + b == b;
    } else {
      var head := if a[0].listener == id then [a[0].snapshot] else [];
      assert (a + b)[0] == a[0];
      assert (a + b)[1..] == a[1..] + b;
      assert Received(a + b, id) == head + Received(a[1..] + b, id);
      ReceivedAppend(a[1..], b, id);
      assert head + (Received(a[1..], id) + Received(b, id)) == (head + Received(a[1..], id)) + Received(b, id);
    }
  }

  /** A broadcast hands the snapshot exactly once to each member of the set, and to nobody else. */
  lemma {:induction false} BroadcastOnce(ls: seq<ListenerId>, s: AuthState, id: ListenerId)
    requires Distinct(ls)
    ensures Received(Broadcast(ls, s), id) == if id in ls then [s] else []
    decreases |ls|
  {
    if |ls| > 0 {
      var ns := Broadcast(ls, s);
      assert ns[1..] == Broadcast(ls[1..], s);
      assert ls == [ls[0]] + ls[1..];
      DistinctCons(ls[0], ls[1..]);
      BroadcastOnce(ls[1..], s, id);
    }
  }

  /** A listener outside the set hears nothing from a broadcast, duplicates in the set or not. */
  lemma {:induction false} BroadcastMisses(ls: seq<ListenerId>, s: AuthState, id: ListenerId)
    requires id !in ls
    ensures Received(Broadcast(ls, s), id) == []
    decreases |ls|
  {
    if |ls| > 0 {
      var ns := Broadcast(ls, s);
      assert ns[1..] == Broadcast(ls[1..], s);
      BroadcastMisses(ls[1..], s, id);
    }
  }
}

=== FILE: query.dfy ===
/**
 * A URL's query as an ordered list of name/value pairs, with the `set`
 * operation of `URLSearchParams`, and a plain `name=value&...` text form.
 */
module Query {
  import opened Wrappers
  import opened Text

  type Pair = (string, string)

  /** The values stored under `key`, in list order (`getAll`). */
  function Values(ps: seq<Pair>, key: string): seq<string>
    decreases |ps|
  {
    if |ps| == 0 then []
    else (if ps[0].0 == key then [ps[0].1] else []) + Values(ps[1..], key)
  }

  /** Every pair named `key` removed, the rest in order. */
  function Drop(ps: seq<Pair>, key: string): (r: seq<Pair>)
    ensures Values(r, key) == []
    ensures forall k :: k != key ==> Values(r, k) == Values(ps, k)
    ensures Values(ps, key) == [] ==> r == ps
    decreases |ps|
  {
    if |ps| == 0 then []
    else if ps[0].0 == key then Drop(ps[1..], key)
    else
      var rest := Drop(ps[1..], key);
      assert ([ps[0]] + rest)[1..] == rest;
      [ps[0]] + rest
  }

  lemma DropCons(x: Pair, rest: seq<Pair>, key: string)
    ensures Drop([x] + rest, key) == if x.0 == key then Drop(rest, key) else [x] + Drop(rest, key)
  {
    assert ([x] + rest)[1..] == rest;
  }

  /** Splicing a kept head onto the tail's rewrite keeps the first-occurrence shape. */
  lemma KeptPrefix(ps: seq<Pair>, key: string, value: string, rest: seq<Pair>)
    requires |ps| > 0 && ps[0].0 != key
    requires Values(ps[1..], key) != [] ==>
      var j := FirstIndex(ps[1..], key);
      rest == ps[1..][..j] + [(key, value)] + Drop(ps[1..][j + 1..], key)
    ensures Values(ps, key) != [] ==>
      var i := FirstIndex(ps, key);
      [ps[0]] + rest == ps[..i] + [(key, value)] + Drop(ps[i + 1..], key)
  {
    if Values(ps, key) == [] {
      return;
    }
    var tail := ps[1..];
    var j := FirstIndex(tail, key);
    assert FirstIndex(ps, key) == j + 1;
    assert ps == [ps[0]] + tail;
    ConsSplice(ps[0], tail, j, [(key, value)], Drop(tail[j + 1..], key));
  }

  /** Slicing a sequence with a new head, one position further on. */
  lemma ConsSplice<T>(x: T, tail: seq<T>, j: nat, mid: seq<T>, after: seq<T>)
    requires j < |tail|
    ensures [x] + (tail[..j] + mid + after) == ([x] + tail)[..j + 1] + mid + after
    ensures ([x] + tail)[j + 2..] == tail[j + 1..]
  {
    assert ([x] + tail)[..j + 1] == [x] + tail[..j];
  }

  /** The index of the first pair named `key`. */
  function FirstIndex(ps: seq<Pair>, key: string): (i: nat)
    requires Values(ps, key) != []
    ensures i < |ps| && ps[i].0 == key
    ensures forall j :: 0 <= j < i ==> ps[j].0 != key
    decreases |ps|
  {
    if ps[0].0 == key then 0 else FirstIndex(ps[1..], key) + 1
  }

  /**
   * What `set(key, value)` promises of its result `r` on `ps`: `key` holds
   * exactly `value`, every other key keeps its values, the pairs not named
   * `key` stay in order, and the new pair sits where the first old one was,
   * or last when there was none.
   */
  ghost predicate SetFacts(ps: seq<Pair>, key: string, value: string, r: seq<Pair>) {
    && Values(r, key) == [value]
    && (forall k :: k != key ==> Values(r, k) == Values(ps, k))
    && (Values(ps, key) == [] ==> r == ps + [(key, value)])
    && Drop(r, key) == Drop(ps, key)
    && (Values(ps, key) != [] ==>
         var i := FirstIndex(ps, key);
         r == ps[..i] + [(key, value)] + Drop(ps[i + 1..], key))
  }

  /**
   * `searchParams.set(key, value)`: the first pair named `key` takes the value
   * and the later ones go; when there is none, the pair is appended.
   */
  function SetParam(ps: seq<Pair>, key: string, value: string): (r: seq<Pair>)
    ensures SetFacts(ps, key, value, r)
    ensures |ps| > 0 && ps[0].0 == key ==> r[0] == (key, value)
    ensures |ps| > 0 && ps[0].0 != key ==> r[0] == ps[0]
    decreases |ps|
  {
    if |ps| == 0 then [(key, value)]
    else if ps[0].0 == key then
      SetParamHead(ps, key, value);
      [(key, value)] + Drop(ps[1..], key)
    else
      var rest := SetParam(ps[1..], key, value);
      SetParamCons(ps, key, value, rest);
      [ps[0]] + rest
  }

  /** A head named `key` takes the value, and the later pairs named `key` go. */
  lemma SetParamHead(ps: seq<Pair>, key: string, value: string)
    requires |ps| > 0 && ps[0].0 == key
    ensures SetFacts(ps, key, value, [(key, value)] + Drop(ps[1..], key))
  {
    var rest := Drop(ps[1..], key);
    var r := [(key, value)] + rest;
    assert r[1..] == rest;
    assert Values(ps, key) != [];
    assert Drop(r, key) == Drop(ps, key) by {
      assert Drop(rest, key) == rest;
    }
    assert ps[..0] == [];
  }

  /** Keeping a head not named `key` in front of the tail's result gives the result for the whole list. */
  lemma SetParamCons(ps: seq<Pair>, key: string, value: string, rest: seq<Pair>)
    requires |ps| > 0 && ps[0].0 != key
    requires SetFacts(ps[1..], key, value, rest)
    ensures SetFacts(ps, key, value, [ps[0]] + rest)
  {
    var r := [ps[0]] + rest;
    assert Values(r, key) == [value] by {
      assert r[1..] == rest;
    }
    assert forall k :: k != key ==> Values(r, k) == Values(ps, k) by {
      assert r[1..] == rest;
    }
    assert Values(ps, key) == [] ==> r == ps + [(key, value)] by {
      assert ps == [ps[0]] + ps[1..];
    }
    assert Drop(r, key) == Drop(ps, key) by {
      assert ps == [ps[0]] + ps[1..];
      DropCons(ps[0], rest, key);
      DropCons(ps[0], ps[1..], key);
    }
    KeptPrefix(ps, key, value, rest);
  }

  /** The value of the last entry named `key`, if any. */
  function LastValue(entries: seq<Pair>, key: string): Option<string>
    decreases |entries|
  {
    if |entries| == 0 then None
    else if entries[|entries| - 1].0 == key then Some(entries[|entries| - 1].1)
    else LastValue(entries[..|entries| - 1], key)
  }

  /**
   * `set` applied for each entry in order: a key among the entries ends up
   * once, with its last value; any other key keeps its pairs.
   */
  function SetAll(ps: seq<Pair>, entries: seq<Pair>): (r: seq<Pair>)
    ensures forall k :: LastValue(entries, k).Some? ==> Values(r, k) == [LastValue(entries, k).value]
    ensures forall k :: LastValue(entries, k).None? ==> Values(r, k) == Values(ps, k)
    decreases |entries|
  {
    if |entries| == 0 then ps
    else
      var n := |entries| - 1;
      SetParam(SetAll(ps, entries[..n]), entries[n].0, entries[n].1)
  }

  /** One `name=value` piece; a piece without '=' is a name with an empty value. */
  function ParsePair(piece: string): (p: Pair)
    ensures '=' !in p.0
    ensures '&' !in piece ==> '&' !in p.0 && '&' !in p.1
  {
    match IndexOf(piece, '=')
    case None => (piece, "")
    case Some(i) => (piece[..i], piece[i + 1..])
  }

  /** The pairs of a query string (without its '?'); empty pieces between '&'s are skipped. */
  function Parse(query: string): (ps: seq<Pair>)
    ensures Plain(ps)
    ensures query == "" ==> ps == []
    ensures '&' !in query && query != "" ==> ps == [ParsePair(query)]
    decreases |query|
  {
    match IndexOf(query, '&')
    case None => if query == "" then [] else [ParsePair(query)]
    case Some(i) => (if i == 0 then [] else [ParsePair(query[..i])]) + Parse(query[i + 1..])
  }

  function Piece(p: Pair): string {
    p.0 + "=" + p.1
  }

  /** The pairs joined as `name=value&name=value`. */
  function Serialize(ps: seq<Pair>): (s: string)
    ensures s == "" <==> |ps| == 0
    decreases |ps|
  {
    if |ps| == 0 then ""
    else if |ps| == 1 then Piece(ps[0])
    else Piece(ps[0]) + "&" + Serialize(ps[1..])
  }

  /** Names and values free of separators. */
  predicate Plain(ps: seq<Pair>) {
    forall i :: 0 <= i < |ps| ==> '&' !in ps[i].0 && '&' !in ps[i].1 && '=' !in ps[i].0
  }

  lemma ParsePiece(p: Pair)
    requires '&' !in p.0 && '&' !in p.1 && '=' !in p.0
    ensures ParsePair(Piece(p)) == p
    ensures '&' !in Piece(p) && Piece(p) != ""
  {
    var s := p.0 + ['='] + p.1;
    assert Piece(p) == s;
    IndexOfAfter(p.0, '=', p.1);
    assert s[..|p.0|] == p.0;
    assert s[|p.0| + 1..] == p.1;
  }

  /** A non-empty piece before the first '&' parses on its own, and the rest after it. */
  lemma ParseCons(head: string, tail: string)
    requires '&' !in head && head != ""
    ensures Parse(head + ['&'] + tail) == [ParsePair(head)] + Parse(tail)
  {
    var s := head + ['&'] + tail;
    IndexOfAfter(head, '&', tail);
    assert s[..|head|] == head;
    assert s[|head| + 1..] == tail;
  }

  lemma PlainTail(ps: seq<Pair>)
    requires |ps| > 0 && Plain(ps)
    ensures Plain(ps[1..])
  {
    forall i | 0 <= i < |ps| - 1 ensures '&' !in ps[1..][i].0 && '&' !in ps[1..][i].1 && '=' !in ps[1..][i].0 {
      assert ps[1..][i] == ps[i + 1];
    }
  }

  /** Parsing the text form gives the pairs back. */
  lemma {:induction false} ParseSerialize(ps: seq<Pair>)
    requires Plain(ps)
    ensures Parse(Serialize(ps)) == ps
    decreases |ps|
  {
    if |ps| == 1 {
      ParsePiece(ps[0]);
    } else if |ps| > 1 {
      var head := Piece(ps[0]);
      var tail := Serialize(ps[1..]);
      ParsePiece(ps[0]);
      assert Serialize(ps) == head + ['&'] + tail;
      ParseCons(head, tail);
      PlainTail(ps);
      ParseSerialize(ps[1..]);
      assert [ps[0]] + ps[1..] == ps;
    }
  }
}

=== FILE: sse.dfy ===
/**
 * The authenticated server-sent-events opener, up to the URL it connects to:
 * the token travels as the `token` query parameter because the transport
 * cannot carry headers.
 */
module Sse {
  import opened Wrappers
  import opened Text
  import opened Types
  import opened Query
  import Http

  /** A URL split into what precedes the query, the query's pairs, and the fragment (with its '#'). */
  datatype StreamUrl = StreamUrl(resource: string, query: seq<Pair>, fragment: string)

  /** Splits at the first '#', then at the first '?' before it. */
  function ParseUrl(s: string): (u: StreamUrl)
    ensures '?' !in u.resource && '#' !in u.resource && StartsWith(s, u.resource)
    ensures Plain(u.query)
    ensures '#' !in s ==> u.fragment == ""
    ensures IndexOf(s, '#').Some? ==> u.fragment == s[IndexOf(s, '#').value..]
    ensures IndexOf(s, '#').Some? && '?' !in s[..IndexOf(s, '#').value] ==>
      u.resource == s[..IndexOf(s, '#').value] && u.query == []
    ensures IndexOf(s, '#').Some? && IndexOf(s[..IndexOf(s, '#').value], '?').Some? ==>
      var h := IndexOf(s, '#').value;
      var j := IndexOf(s[..h], '?').value;
      u.resource == s[..j] && u.query == Parse(s[j + 1..h])
    ensures '?' !in s && '#' !in s ==> u == StreamUrl(s, [], "")
    ensures '#' !in s && IndexOf(s, '?').Some? ==>
      var j := IndexOf(s, '?').value;
      u == StreamUrl(s[..j], Parse(s[j + 1..]), "")
  {
    var beforeHash := match IndexOf(s, '#') case None => s case Some(i) => s[..i];
    var fragment := match IndexOf(s, '#') case None => "" case Some(i) => s[i..];
    match IndexOf(beforeHash, '?')
    case None => StreamUrl(beforeHash, [], fragment)
    case Some(j) => StreamUrl(beforeHash[..j], Parse(beforeHash[j + 1..]), fragment)
  }

  /** `url.toString()` once the query has been rewritten. */
  function UrlString(u: StreamUrl): (s: string)
    ensures StartsWith(s, u.resource)
    ensures |u.query| > 0 ==> StartsWith(s, u.resource + "?")
    ensures |u.query| == 0 ==> s == u.resource + u.fragment
  {
    u.resource + (if |u.query| == 0 then "" else "?" + Serialize(u.query)) + u.fragment
  }

  /** A URL that its own text form describes unambiguously: separators only where they delimit. */
  predicate Canonical(u: StreamUrl) {
    && '?' !in u.resource && '#' !in u.resource
    && Plain(u.query)
    && (forall i :: 0 <= i < |u.query| ==> '#' !in u.query[i].0 && '#' !in u.query[i].1)
    && (u.fragment == "" || u.fragment[0] == '#')
  }

  /** A character that no name or value contains, and that is no separator, is absent from the text form. */
  lemma {:induction false} SerializeAvoids(ps: seq<Pair>, c: char)
    requires c != '&' && c != '='
    requires forall i :: 0 <= i < |ps| ==> c !in ps[i].0 && c !in ps[i].1
    ensures c !in Serialize(ps)
    decreases |ps|
  {
    if |ps| > 1 {
      SerializeAvoids(ps[1..], c);
      assert Serialize(ps) == Piece(ps[0]) + "&" + Serialize(ps[1..]);
    }
  }

  /** Reading back the text form of a canonical URL gives the URL. */
  lemma ParseUrlString(u: StreamUrl)
    requires Canonical(u)
    ensures ParseUrl(UrlString(u)) == u
  {
    var head := u.resource + (if |u.query| == 0 then "" else "?" + Serialize(u.query));
    SerializeAvoids(u.query, '#');
    assert '#' !in head;
    assert UrlString(u) == head + u.fragment;
    HeadParses(u, head);
    if u.fragment == "" {
      assert UrlString(u) == head;
    } else {
      FragmentSplits(head, u.fragment);
    }
  }

  /** A fragment appended to text without '#' is split off again. */
  lemma FragmentSplits(head: string, fragment: string)
    requires '#' !in head && fragment != "" && fragment[0] == '#'
    ensures var s := head + fragment;
      IndexOf(s, '#') == Some(|head|) && s[..|head|] == head && s[|head|..] == fragment
  {
    var s := head + [fragment[0]] + fragment[1..];
    assert head + fragment == s;
    IndexOfAfter(head, '#', fragment[1..]);
    assert s[..|head|] == head;
    assert s[|head|..] == fragment;
  }

  /** The part before the fragment splits back into resource and query. */
  lemma HeadParses(u: StreamUrl, head: string)
    requires Canonical(u)
    requires head == u.resource + (if |u.query| == 0 then "" else "?" + Serialize(u.query))
    ensures match IndexOf(head, '?')
            case None => |u.query| == 0 && head == u.resource
            case Some(j) => head[..j] == u.resource && Parse(head[j + 1..]) == u.query
  {
    if |u.query| == 0 {
      assert head == u.resource;
    } else {
      var text := Serialize(u.query);
      assert head == u.resource + ['?'] + text;
      IndexOfAfter(u.resource, '?', text);
      assert head[..|u.resource|] == u.resource;
      assert head[|u.resource| + 1..] == text;
      ParseSerialize(u.query);
    }
  }

  /** What opening the stream did: how often it asked for a token, and the URL it connects to. */
  datatype StreamOpen = StreamOpen(tokenCalls: nat, url: StreamUrl)

  /**
   * The query after the token and the extra parameters were set on the
   * path's own pairs `before`.
   */
  function StreamQuery(before: seq<Pair>, token: Option<string>, params: seq<Pair>): (q: seq<Pair>)
    ensures Values(q, "token") ==
              if LastValue(params, "token").Some? then [LastValue(params, "token").value]
              else if Truthy(token) then [token.value]
              else Values(before, "token")
    ensures forall k :: k != "token" ==>
              Values(q, k) == if LastValue(params, k).Some? then [LastValue(params, k).value] else Values(before, k)
  {
    var withToken := WithToken(before, token);
    var q := SetAll(withToken, params);
    assert Values(q, "token") == if LastValue(params, "token").Some? then [LastValue(params, "token").value]
                                 else Values(withToken, "token");
    q
  }

  /** The path's pairs after `set('token', token)` when the token is usable. */
  function WithToken(before: seq<Pair>, token: Option<string>): (q: seq<Pair>)
    ensures Values(q, "token") == if Truthy(token) then [token.value] else Values(before, "token")
    ensures forall k :: k != "token" ==> Values(q, k) == Values(before, k)
  {
    if Truthy(token) then SetParam(before, "token", token.value) else before
  }

  /**
   * `createAuthenticatedSSE(baseUrl, path, manager, { params })`: one token
   * request, the same path resolution as the fetch wrapper, the token set as
   * `token` when usable, then each extra parameter set in order.
   */
  function OpenStream(baseUrl: string, path: string, getToken: nat -> Option<string>, params: seq<Pair>): (r: StreamOpen)
    ensures r.tokenCalls == 1
    ensures var target := ParseUrl(Http.ResolveUrl(baseUrl, path));
            && r.url.resource == target.resource && r.url.fragment == target.fragment
            && r.url.query == StreamQuery(target.query, getToken(0), params)
  {
    var target := ParseUrl(Http.ResolveUrl(baseUrl, path));
    StreamOpen(1, target.(query := StreamQuery(target.query, getToken(0), params)))
  }

  /**
   * When neither the path nor the extra parameters name `token`, the stream
   * URL carries `token` exactly when a usable token was obtained, and then
   * carries that token once.
   */
  lemma TokenParamIffToken(baseUrl: string, path: string, getToken: nat -> Option<string>, params: seq<Pair>)
    requires Values(ParseUrl(Http.ResolveUrl(baseUrl, path)).query, "token") == []
    requires LastValue(params, "token").None?
    ensures Values(OpenStream(baseUrl, path, getToken, params).url.query, "token") != [] <==> Truthy(getToken(0))
    ensures Truthy(getToken(0)) ==> Values(OpenStream(baseUrl, path, getToken, params).url.query, "token") == [getToken(0).value]
  {
  }

  /** `/events/stream` under `/api/v1` with token `T1` connects to `/api/v1/events/stream?token=T1`. */
  lemma StreamUrlExample()
    ensures UrlString(OpenStream("/api/v1", "/events/stream", _ => Some("T1"), []).url)
         == "/api/v1/events/stream?token=T1"
  {
    ExampleUrl();
    ExampleText();
  }

  lemma ExampleTarget()
    ensures ParseUrl(Http.ResolveUrl("/api/v1", "/events/stream")) == StreamUrl("/api/v1/events/stream", [], "")
  {
    var base, path := "/api/v1", "/events/stream";
    assert path[0] != "http"[0];
    var s := base + path;
    assert s == "/api/v1/events/stream";
    assert Http.ResolveUrl(base, path) == s;
    assert '?' !in s && '#' !in s;
  }

  lemma ExampleUrl()
    ensures OpenStream("/api/v1", "/events/stream", _ => Some("T1"), []).url
         == StreamUrl("/api/v1/events/stream", [("token", "T1")], "")
  {
    ExampleTarget();
    assert SetParam([], "token", "T1") == [("token", "T1")];
  }

  lemma ExampleText()
    ensures UrlString(StreamUrl("/api/v1/events/stream", [("token", "T1")], "")) == "/api/v1/events/stream?token=T1"
  {
    assert Serialize([("token", "T1")]) == "token=T1";
    ExampleConcat();
  }

  lemma ExampleConcat()
    ensures "/api/v1/events/stream" + ("?" + "token=T1") + "" == "/api/v1/events/stream?token=T1"
  {
  }
}

=== FILE: text.dfy ===
/** The few JavaScript string operations the library relies on. */
module Text {
  import opened Wrappers

  /** `s.startsWith(prefix)` */
  predicate StartsWith(s: string, prefix: string) {
    |prefix| <= |s| && s[..|prefix|] == prefix
  }

  /** `sub` occurs in `s` at index `i`. */
  predicate OccursAt(s: string, sub: string, i: nat) {
    i + |sub| <= |s| && s[i..i + |sub|] == sub
  }

  /** `s.includes(sub)`, written as a left-to-right scan. */
  function Includes(s: string, sub: string): (r: bool)
    ensures StartsWith(s, sub) ==> r
    ensures r ==> |sub| <= |s|
    decreases |s|
  {
    if StartsWith(s, sub) then true
    else if |s| == 0 then false
    else Includes(s[1..], sub)
  }

  /** The scan finds `sub` exactly when `sub` occurs somewhere in `s`. */
  lemma {:induction false} IncludesIffOccurs(s: string, sub: string)
    ensures Includes(s, sub) <==> exists i: nat :: OccursAt(s, sub, i)
    decreases |s|
  {
    if StartsWith(s, sub) {
      assert OccursAt(s, sub, 0);
    } else if |s| == 0 {
    } else {
      var t := s[1..];
      IncludesIffOccurs(t, sub);
      if exists i: nat :: OccursAt(s, sub, i) {
        var i: nat :| OccursAt(s, sub, i);
        assert t[i - 1..i - 1 + |sub|] == s[i..i + |sub|];
        assert OccursAt(t, sub, i - 1);
      }
      if exists j: nat :: OccursAt(t, sub, j) {
        var j: nat :| OccursAt(t, sub, j);
        assert s[j + 1..j + 1 + |sub|] == t[j..j + |sub|];
        assert OccursAt(s, sub, j + 1);
      }
    }
  }

  /** `s.indexOf(c)`: the first index holding `c`, or `None` (JavaScript's -1). */
  function IndexOf(s: string, c: char): (r: Option<nat>)
    ensures r.None? ==> c !in s
    ensures r.Some? ==> r.value < |s| && s[r.value] == c && c !in s[..r.value]
    decreases |s|
  {
    if |s| == 0 then None
    else if s[0] == c then Some(0)
    else match IndexOf(s[1..], c)
      case None => None
      case Some(i) => Some(i + 1)
  }

  /** A character that does not occur in `a` is found right after `a`. */
  lemma IndexOfAfter(a: string, c: char, b: string)
    requires c !in a
    ensures IndexOf(a + [c] + b, c) == Some(|a|)
  {
    var s := a + [c] + b;
    assert s[|a|] == c;
  }

  /** ASCII lower-casing of one character. */
  function LowerChar(c: char): char {
    if 'A' <= c <= 'Z' then (c as int + 32) as char else c
  }

  /** ASCII lower-casing, as header names are normalised. */
  function Lower(s: string): (r: string)
    ensures |r| == |s|
    ensures forall i :: 0 <= i < |s| ==> r[i] == LowerChar(s[i])
  {
    seq(|s|, i requires 0 <= i < |s| => LowerChar(s[i]))
  }
}

=== FILE: types.dfy ===
/** The shared records of the library: the user, the auth snapshot and the identity-provider config. */
module Types {
  import opened Wrappers

  /** A signed-in user; `name`, `picture` and `actualRole` are optional. */
  datatype AuthUser = AuthUser(
    sub: string,
    email: string,
    name: Option<string>,
    picture: Option<string>,
    roles: seq<string>,
    actualRole: Option<string>)

  /** The auth snapshot every listener receives. */
  datatype AuthState = AuthState(
    user: Option<AuthUser>,
    token: Option<string>,
    isLoading: bool,
    isAuthenticated: bool)

  /** Connection parameters of the identity provider. */
  datatype KeycloakAuthConfig = KeycloakAuthConfig(url: string, realm: string, clientId: string)

  /** The snapshot after a logout or a failed user resolution. */
  const SignedOut := AuthState(None, None, false, false)

  /** JavaScript truthiness of a `string | null`: present and not empty. */
  predicate Truthy(s: Option<string>) {
    s.Some? && s.value != ""
  }
}

=== FILE: wrappers.dfy ===
/** Optional values and results, standing in for JavaScript's `null`/`undefined` and for rejected promises. */
module Wrappers {

  /** `None` is a JavaScript `null` or `undefined`. */
  datatype Option<+T> = None | Some(value: T) {

    /** The wrapped value, or `default` when there is none. */
    function GetOr(default: T): T {
      match this
      case Some(v) => v
      case None => default
    }
  }

  /** JavaScript's nullish coalescing `a ?? b`. */
  function Coalesce<T>(a: Option<T>, b: Option<T>): (r: Option<T>)
    ensures a.Some? ==> r == a
    ensures a.None? ==> r == b
  {
    if a.Some? then a else b
  }

  /** A settled promise: fulfilled with a value or rejected with an error. */
  datatype Result<+R, +E> = Success(value: R) | Failure(error: E)
}
